=== FILE: README.md ===
# Qiskit Metal log router and dictionary helpers, in Dafny

This project models two pieces of Qiskit Metal and proves properties of them.

**The GUI log widget.** `QTextEditLogger` and `LogHandler_for_QTextLog` form a small state
machine once the Qt widget is abstracted away. The state holds:

- a bounded history of `(source, record)` pairs, a `deque` with `maxlen`;
- an insertion-ordered map from source name to a visibility flag;
- the handler registered for each source;
- the timestamp and autoscroll flags;
- the text widget, modelled as a sequence of sink lines `(text, kind)`. The kind is `Html`
  (`insertHtml` after the timestamp strip), `RawHtml` (`insertHtml` as is) or `Plain`
  (`insertText`).

The operations are `add_logger`, the per-source toggle, `get_all_checked`, `log_message_to`,
`show_all_messages`, `toggle_timestamps`, `toggle_autoscroll` and `log_message`. Two string
transforms sit on top of them. `emit` wraps an HTML-escaped record as
`<span class="LEVEL"><pre>…</pre></span>`. `log_message` strips the timestamp by dropping the
20 characters after the first `<pre>`.

**The dictionary helpers.** `copy_update` and `dict_start_with` work on insertion-ordered
dictionaries. A dictionary is modelled as a sequence of pairs with distinct keys, so iteration
order can be observed.

Modules, one per file:

| module | file | contents |
|---|---|---|
| `Wrappers` | `wrappers.dfy` | `Option`, `Result` |
| `Text` | `text.dfy` | prefix test, first occurrence, `str.split(sep, 1)`, `s[n:]` |
| `OrderedDict` | `ordered_dict.dfy` | the `dict` model: lookup, assignment, `update` |
| `Deque` | `deque.dfy` | `deque.append` with `maxlen` |
| `HtmlEscape` | `html_escape.dfy` | `html.escape(s, quote=True)` and its inverse |
| `LogMessage` | `log_message.dfy` | the branch and timestamp strip of `log_message` |
| `LogRouter` | `log_router.dfy` | the router state and its transitions |
| `LogRouterProps` | `log_router_props.dfy` | properties that span several transitions |
| `LogHandler` | `log_handler.dfy` | `emit`: formatting, forwarding, detaching |
| `Pythonic` | `pythonic.dfy` | `copy_update`, `dict_start_with` |

**Records for unregistered names.** A record for a name that `add_logger` never registered is
appended to `logged_lines` but is not shown while the name stays unregistered, and the name is
not registered: `get_all_checked` lists only names in `tracked_loggers`
(`LogRouterProps.UnregisteredNotShown`). The record stays in the history, so once `add_logger`
registers the name the next replay shows it (`LogRouterProps.UnregisteredShownOnceAdded`).

**How some Python details are read.**

- `name is 'Errors'` is read as string equality. This assumes every `'Errors'` name a caller
  passes is the interned literal itself; see `LogRouter.FormatFor` under "## Left out".
- `format_as_html` is a `bool` or an `int`. `== True` then holds for both `True` and `1`.
- The timestamp flag stands for `action_show_times.isChecked()`, which is what `log_message`
  reads. `toggle_timestamps` is modelled as the slot of that action's `toggled` signal, so its
  argument is the action's new state; see `LogRouter.ToggleTimestamps` under "## Left out".
- On a deleted widget, `emit` still appends to the history, because that is plain Python. The
  `RuntimeError` comes from the first Qt call. `log_message` makes that call only for a visible
  source. The handler then removes itself with `list.remove`, which raises `ValueError` when
  the handler is not in the logger's list.

## Model

| member | source | states |
|---|---|---|
| `Text.Find` | qiskit_metal/_gui/widgets/log_widget/log_metal.py:281 | the position found is the first occurrence of the separator; no result means it does not occur |
| `Text.SplitOnce` | qiskit_metal/_gui/widgets/log_widget/log_metal.py:281 | for a non-empty separator, `split(sep, 1)` gives one piece, the whole string, exactly when `sep` is absent; otherwise two pieces that rejoin with `sep` around its first occurrence |
| `Text.DropPrefix` | qiskit_metal/_gui/widgets/log_widget/log_metal.py:283 | `s[n:]` is the tail after the first `n` characters, empty when `s` is shorter |
| `OrderedDict.SetSpec` | qiskit_metal/_gui/widgets/log_widget/log_metal.py:202-204 | dict assignment keeps keys distinct; a present key keeps its position and a new key goes last; the key gets the new value and every other key keeps its own |
| `OrderedDict.UpdateSpec` | qiskit_metal/toolbox/pythonic.py:39 | `dict.update` keeps the old keys in order and then the new keys in first-occurrence order; each updated key takes its last value in the update; other keys keep their values |
| `OrderedDict.UpdateIdempotent` | qiskit_metal/toolbox/pythonic.py:39 | applying the same update twice equals applying it once |
| `Pythonic.UpdateConcat` | qiskit_metal/toolbox/pythonic.py:39 | updating with the positional pairs and then the keyword pairs equals one update with their concatenation |
| `Pythonic.CopyUpdate` | qiskit_metal/toolbox/pythonic.py:33-43 | more than one positional argument is a `TypeError`; otherwise update keys map to the update's last value, other keys keep their value, and the key set is the union with the original order first |
| `Pythonic.CopyUpdateDeepCopyIrrelevant` | qiskit_metal/toolbox/pythonic.py:37-43 | the deep-copy and shallow-copy branches give the same dictionary |
| `Pythonic.CopyUpdateIdempotent` | qiskit_metal/toolbox/pythonic.py:33-43 | `copy_update` applied again with the same update returns the same dictionary |
| `Pythonic.Matching` | qiskit_metal/toolbox/pythonic.py:52 | the filter keeps exactly the entries of the input whose key starts with the prefix, and is never larger than the input |
| `Pythonic.MatchingConcat` | qiskit_metal/toolbox/pythonic.py:52 | the filter keeps iteration order: filtering a concatenation is the concatenation of the filtered parts |
| `Pythonic.MatchingDistinct` | qiskit_metal/toolbox/pythonic.py:54 | the filtered entries still have distinct keys, so the `dict` result is a well-formed dictionary |
| `Pythonic.DictStartWith` | qiskit_metal/toolbox/pythonic.py:45-54 | `as_=dict` gives the matching entries, `as_=list` gives their values in order, and any other `as_` gives `None` |
| `Pythonic.DictStartWithEntries` | qiskit_metal/toolbox/pythonic.py:53-54 | a key is in the `dict` result exactly when it is a key of the input starting with the prefix, and it keeps its value |
| `Pythonic.DictStartWithSizes` | qiskit_metal/toolbox/pythonic.py:51-54 | the `list` result holds as many values as the `dict` result has entries: its values, in order |
| `Pythonic.DictStartWithEmptyPrefix` | qiskit_metal/toolbox/pythonic.py:51-54 | the empty prefix selects every value in order, and the whole dictionary |
| `Pythonic.DictStartWithExample` | qiskit_metal/toolbox/pythonic.py:46-49 | the docstring example selects `'15th july'`; the match is case-sensitive, so `'date'` selects nothing |
| `HtmlEscape.Escape` | qiskit_metal/_gui/widgets/log_widget/log_metal.py:359 | the escaped text holds no raw `<`, `>`, `"` or `'`, and is at least as long as the input |
| `HtmlEscape.EscapeConcat` | qiskit_metal/_gui/widgets/log_widget/log_metal.py:359 | escaping works character by character: it distributes over concatenation |
| `HtmlEscape.EscapePlain` | qiskit_metal/_gui/widgets/log_widget/log_metal.py:359 | text with none of `&<>"'` is left unchanged |
| `HtmlEscape.UnescapeEscape` | qiskit_metal/_gui/widgets/log_widget/log_metal.py:359 | decoding the five entities recovers the original text, so the escape loses nothing |
| `Deque.Newest` | qiskit_metal/_gui/widgets/log_widget/log_metal.py:62-63 | the result is the last `n` elements of the input, or all of them when fewer |
| `Deque.AppendSpec` | qiskit_metal/_gui/widgets/log_widget/log_metal.py:257 | `append` never exceeds `maxlen`; a deque that is not full grows by the element; a full one drops its oldest; the new element is last |
| `Deque.NewestOfNewest` | qiskit_metal/_gui/widgets/log_widget/log_metal.py:62-63 | trimming, appending more and trimming again equals trimming once |
| `Deque.AppendAllNewest` | qiskit_metal/_gui/widgets/log_widget/log_metal.py:257 | after any run of appends the deque holds exactly the `maxlen` most recent elements, oldest first |
| `Deque.CapacityTwoExample` | qiskit_metal/_gui/widgets/log_widget/log_metal.py:62-63 | capacity 2 and arrivals R1, R2, R3 leave `[R2, R3]` |
| `LogMessage.KindOf` | qiskit_metal/_gui/widgets/log_widget/log_metal.py:276-293 | the html branch is taken for `True` and for `1`; the raw-html branch only for `2`; every other value is plain text |
| `LogMessage.StripTimestamp` | qiskit_metal/_gui/widgets/log_widget/log_metal.py:281-285 | with a `<pre>` the result is the text before the first one, then `<pre>`, then what follows minus its first 20 characters; without one the message is unchanged |
| `LogMessage.LogMessage` | qiskit_metal/_gui/widgets/log_widget/log_metal.py:261-293 | the sink line has the kind of the argument; it is stripped only in html mode with timestamps hidden, and otherwise is the message as given |
| `LogMessage.StripLength` | qiskit_metal/_gui/widgets/log_widget/log_metal.py:281-283 | the strip keeps everything up to and including the first `<pre>`, and removes exactly 20 characters, or all that follow when fewer |
| `LogRouter.Init` | qiskit_metal/_gui/widgets/log_widget/log_metal.py:49-63 | the initial widget state satisfies the router invariant |
| `LogRouter.FormatFor` | qiskit_metal/_gui/widgets/log_widget/log_metal.py:254-259 | records from `'Errors'` go down the plain-text branch and every other source down the html branch |
| `LogRouter.CheckedNames` | qiskit_metal/_gui/widgets/log_widget/log_metal.py:240-245 | `get_all_checked` lists a name exactly when it is tracked with a true flag |
| `LogRouter.Render` | qiskit_metal/_gui/widgets/log_widget/log_metal.py:254 | a history entry is shown as plain text exactly when its source is `'Errors'` |
| `LogRouter.Clear` | qiskit_metal/_gui/widgets/log_widget/log_metal.py:251 | `clear` empties the widget and changes nothing else |
| `LogRouter.AddLogger` | qiskit_metal/_gui/widgets/log_widget/log_metal.py:199-204 | a tracked name changes nothing; a new name is tracked as visible with its handler, after every existing entry, and nothing else changes |
| `LogRouter.ToggleSource` | qiskit_metal/_gui/widgets/log_widget/log_metal.py:210-221 | the toggle sets that source's flag, keeps every other flag and the key order, and does not replay |
| `LogRouter.LogMessageTo` | qiskit_metal/_gui/widgets/log_widget/log_metal.py:256-259 | the entry always goes into the bounded history; the widget gains its rendering exactly when the source is visible; nothing else changes |
| `LogRouter.ShowAllMessages` | qiskit_metal/_gui/widgets/log_widget/log_metal.py:247-254 | replaying changes only the widget |
| `LogRouter.ToggleTimestamps` | qiskit_metal/_gui/widgets/log_widget/log_metal.py:70-72 | the flag takes the new value, the widget shows the replay of the history with it, and nothing else changes |
| `LogRouter.ToggleAutoscroll` | qiskit_metal/_gui/widgets/log_widget/log_metal.py:67-68 | only the autoscroll flag changes |
| `LogRouterProps.VisibleEntries` | qiskit_metal/_gui/widgets/log_widget/log_metal.py:252-253 | reference filter: an entry is kept exactly when it is in the history and its source is visible |
| `LogRouterProps.CheckedNamesConcat` | qiskit_metal/_gui/widgets/log_widget/log_metal.py:240-245 | `get_all_checked` keeps registration order: it distributes over concatenation of the registry |
| `LogRouterProps.VisibleIff` | qiskit_metal/_gui/widgets/log_widget/log_metal.py:240-245 | a source is visible exactly when it is tracked and its flag is true |
| `LogRouterProps.AddLoggerVisibility` | qiskit_metal/_gui/widgets/log_widget/log_metal.py:199-204 | a new source starts visible; other sources' visibility is unchanged; registering the same name twice is registering it once |
| `LogRouterProps.ToggleSourceVisibility` | qiskit_metal/_gui/widgets/log_widget/log_metal.py:221 | the toggled source's visibility becomes the new value; every other source's visibility, the history and the widget stay as they were |
| `LogRouterProps.ReplayIsRenderOfVisible` | qiskit_metal/_gui/widgets/log_widget/log_metal.py:252-254 | the replay loop renders exactly the visible entries, in history order |
| `LogRouterProps.ReplayConcat` | qiskit_metal/_gui/widgets/log_widget/log_metal.py:252-254 | replaying a concatenated history replays each part in turn |
| `LogRouterProps.ReplayAppendOne` | qiskit_metal/_gui/widgets/log_widget/log_metal.py:252-254 | one more history entry adds its rendering to the replay exactly when its source is visible |
| `LogRouterProps.ShowAllMessagesSpec` | qiskit_metal/_gui/widgets/log_widget/log_metal.py:247-254 | after the replay the widget shows exactly the visible history, rendered in order; history and registry are unchanged; replaying again changes nothing |
| `LogRouterProps.ToggleTimestampsSpec` | qiskit_metal/_gui/widgets/log_widget/log_metal.py:70-72 | toggling timestamps re-renders exactly the visible history, in order, with the new setting; history and registry are unchanged |
| `LogRouterProps.HiddenSourceNotReplayed` | qiskit_metal/_gui/widgets/log_widget/log_metal.py:252-254 | after hiding a source and replaying, no shown entry comes from it and every other visible entry is still shown |
| `LogRouterProps.UnregisteredNotShown` | qiskit_metal/_gui/widgets/log_widget/log_metal.py:256-259 | a record for an unregistered name is stored but not shown while the name is unregistered, and does not register the name |
| `LogRouterProps.UnregisteredShownOnceAdded` | qiskit_metal/_gui/widgets/log_widget/log_metal.py:252-257 | once `add_logger` registers a name whose record was stored unregistered, the next replay ends with that record's rendering, whenever the history has room for at least one entry |
| `LogRouterProps.ReplaySuffix` | qiskit_metal/_gui/widgets/log_widget/log_metal.py:252-254 | replaying the newest part of a history gives the end of the replay of the whole |
| `LogRouterProps.ShowAllMessagesInStep` | qiskit_metal/_gui/widgets/log_widget/log_metal.py:247-254 | after a replay or a timestamp toggle the widget agrees with a replay of the history |
| `LogRouterProps.LogMessageToSink` | qiskit_metal/_gui/widgets/log_widget/log_metal.py:258-259 | the widget gains the entry's rendering when its source is visible and nothing otherwise |
| `LogRouterProps.LogMessageToInStep` | qiskit_metal/_gui/widgets/log_widget/log_metal.py:256-259 | incremental logging keeps the newest lines of the widget equal to a replay of the history, eviction included |
| `LogRouterProps.LogMessageToMatchesReplay` | qiskit_metal/_gui/widgets/log_widget/log_metal.py:256-259 | without eviction, a widget equal to the replay stays equal to the replay after logging |
| `LogRouterProps.LogAll` | qiskit_metal/_gui/widgets/log_widget/log_metal.py:256-259 | logging a run of records keeps the router invariant |
| `LogRouterProps.LogAllRetains` | qiskit_metal/_gui/widgets/log_widget/log_metal.py:62-63 | after any run of records, visible or not, the history is the newest `capacity` entries in arrival order; the registry and the timestamp flag are unchanged |
| `LogRouterProps.TimestampsRoundTrip` | qiskit_metal/_gui/widgets/log_widget/log_metal.py:70-72 | with timestamps shown every visible record appears as logged; hiding and then showing timestamps gives the same state as showing them |
| `LogRouterProps.TwoSources` | qiskit_metal/_gui/widgets/log_widget/log_metal.py:182-204 | registering A and then B gives a valid router |
| `LogRouterProps.TwoSourcesState` | qiskit_metal/_gui/widgets/log_widget/log_metal.py:199-204 | that router tracks A then B, both visible, with an empty history |
| `LogRouterProps.BothChecked` | qiskit_metal/_gui/widgets/log_widget/log_metal.py:240-245 | with A and B both visible, `get_all_checked` lists A then B |
| `LogRouterProps.HideA` | qiskit_metal/_gui/widgets/log_widget/log_metal.py:221 | hiding A in the registry of A and B leaves B the only checked name |
| `LogRouterProps.OnlyBVisible` | qiskit_metal/_gui/widgets/log_widget/log_metal.py:252-253 | with only B visible, three entries from A and one from B filter to B's |
| `LogRouterProps.VisibleAll` | qiskit_metal/_gui/widgets/log_widget/log_metal.py:252-253 | when every entry's source is visible, nothing is filtered out |
| `LogRouterProps.ScenarioReplayAll` | qiskit_metal/_gui/widgets/log_widget/log_metal.py:247-254 | with both sources visible, the replay shows all four entries in arrival order |
| `LogRouterProps.ScenarioReplayHidden` | qiskit_metal/_gui/widgets/log_widget/log_metal.py:247-254 | after A is hidden, the replay shows only B's entry |
| `LogRouterProps.ScenarioLogged` | qiskit_metal/_gui/widgets/log_widget/log_metal.py:256-257 | logging records into an empty history with room for all of them keeps them all, in order, with registry and timestamp flag unchanged |
| `LogRouterProps.TwoSourceScenario` | qiskit_metal/_gui/widgets/log_widget/log_metal.py:247-254 | with A and B registered and three records of A then one of B in the history, a replay shows all four in order, and after hiding A a replay shows only B's |
| `LogHandler.Truncate` | qiskit_metal/_gui/widgets/log_widget/log_metal.py:338 | `%.19s` keeps the first 19 characters, or the whole string when shorter |
| `LogHandler.DefaultFormat` | qiskit_metal/_gui/widgets/log_widget/log_metal.py:338 | a timestamp of at least 19 characters makes the first 20 characters of the line its first 19 and a space, followed by the logger name, message, module and function; a shorter timestamp is kept whole and followed by a space and the same body |
| `LogHandler.HtmlLogMessage` | qiskit_metal/_gui/widgets/log_widget/log_metal.py:359-361 | the message is the span and `<pre>`, then a payload with no raw markup that decodes back to the formatted record, then `</pre></span>` |
| `LogHandler.FirstIndex` | qiskit_metal/_gui/widgets/log_widget/log_metal.py:368 | the position found holds the handler, and no earlier position does |
| `LogHandler.RemoveFirst` | qiskit_metal/_gui/widgets/log_widget/log_metal.py:368 | `list.remove` drops one occurrence, the first, and keeps the rest in order |
| `LogHandler.Emit` | qiskit_metal/_gui/widgets/log_widget/log_metal.py:347-368 | the formatted record always enters the history; with a live widget it is forwarded as `log_message_to`; with a deleted widget only the history changes in the router, and a visible source detaches the handler from its logger (the first occurrence is removed and the rest keep their order), or fails with `ValueError` when it is already gone |
| `LogHandler.PreTagAfterSpan` | qiskit_metal/_gui/widgets/log_widget/log_metal.py:360-361 | in an emitted message the first `<pre>` is the one after the span tag, when the level name has no `<` |
| `LogHandler.StripEmitted` | qiskit_metal/_gui/widgets/log_widget/log_metal.py:279-283 | stripping an emitted message keeps the span and the `<pre>` and drops the first 20 characters of the escaped payload |
| `LogHandler.PlainStamp` | qiskit_metal/_gui/widgets/log_widget/log_metal.py:338 | a 19-character timestamp of plain characters and its space make 20 plain characters |
| `LogHandler.DropPlainHead` | qiskit_metal/_gui/widgets/log_widget/log_metal.py:283 | 20 plain leading characters pass the escape unchanged, so dropping 20 characters removes exactly them |
| `LogHandler.StripRemovesDefaultTimestamp` | qiskit_metal/_gui/widgets/log_widget/log_metal.py:279-283 | with the default format and a plain 19-character timestamp, hiding timestamps removes exactly the timestamp and its space |
| `LogHandler.EmittedRecordDisplay` | qiskit_metal/_gui/widgets/log_widget/log_metal.py:276-287 | an emitted record routed to a non-`'Errors'` source (the handler's name) shows without its timestamp when timestamps are hidden, and as emitted when they are shown, whatever logger name the format prints |

## Left out

- Qt rendering: cursors, block insertion, `insertHtml` and `insertText` are abstracted as
  appending a sink line. Also left out are scrolling (`moveCursor`, `ensureCursorVisible`), the
  `QAction` menus (`setup_menu`, `make_trg`, `monkey_patch`, the per-source action), the style
  sheet and the dock-window title (`set_window_title_level`). These are GUI toolkit calls.
- `LogRouter.ToggleAutoscroll`: the flag is modelled, but the cursor movement it controls in
  `log_message` is not, because that movement is a Qt call.
- `welcome_message` and `print_all_tips`. They depend on a random choice, a file-system check
  and configuration content. Their `format_as_html=2` and default-`True` calls are covered by
  `LogMessage.LogMessage`.
- `set_level`, and severity filtering in general. Filtering happens inside Python's `logging`,
  not in this code.
- `logging.Formatter` internals. The formatted line (and `asctime`, for the default format) is
  an input.
- `remove_handlers`, which acts on handler objects of a foreign logger.
- The `print` to standard output in `emit`'s error path, which is I/O.
- Threads. `emit` runs on whichever thread calls the logger, and `logging` locks only inside
  one handler, so two sources' `emit` calls, or an `emit` and the GUI thread's
  `show_all_messages`, are not serialized. Their history appends and widget inserts can
  interleave. The model treats every call as atomic and runs calls one after another. The
  in-step property `LogRouterProps.LogMessageToInStep` holds only under that ordering.
  Interleavings need a concurrency model, which pure transitions do not express.
- `LogHandler_for_QTextLog.__init__` (setting the level, installing the formatter, adding itself
  to the logger). The default format string it builds is modelled by `LogHandler.DefaultFormat`.
- `deque` with `maxlen=None`. The capacity comes from configuration and is modelled as a
  natural number.
- `qiskit_metal/draw_functions.py` is not part of this model. It is HFSS/pyEPR modeler calls and
  floating-point vector math.
- `display_options` (pandas display), the `deprecated` decorator (warnings machinery) and the
  traceback utilities in `pythonic.py` (interpreter stack introspection).
- Deep-copy versus shallow-copy aliasing of nested values. Dictionaries are values here, so the
  input can never change and both copies are the value itself.
- `Pythonic.CopyUpdate`: keyword-argument keys are always strings in Python. The model lets them
  have the key type of the dictionary, which is more general. Each positional argument is taken
  as its sequence of pairs, whether it is a mapping or an iterable of pairs.
- `LogRouter.ToggleSource`: requires the name to be tracked, and that holds for every call the
  code can make. `toggle_<name>` exists only after `add_logger(name)` has tracked `name`; its
  closure captures that name; and no operation removes a name from `tracked_loggers`.
- `LogRouter.FormatFor`: reads `name is 'Errors'` as string equality, so it assumes the name is
  the interned literal. A name equal to `'Errors'` but built at run time (read from
  configuration, joined or formatted) fails `is` in the code. Its records then take the html
  branch with the timestamp strip. The model shows them as plain text instead.
- `LogRouter.ToggleTimestamps`: models the slot as the `toggled` signal of
  `action_show_times` drives it, so its argument is the action's checked state. `log_message`
  reads `action_show_times.isChecked()` and never `_show_timestamps`. A direct call
  `toggle_timestamps(True)` while the action is unchecked would therefore replay with timestamps
  still stripped. The model does not keep the two as separate fields.

=== FILE: deque.dfy ===
/** `collections.deque([], maxlen)` restricted to what the log widget uses: `append`.
    A full deque drops its oldest element to make room for the new one. */
module Deque {

  /** The last `n` elements of `s` (all of `s` when it is shorter). */
  function Newest<T>(s: seq<T>, n: nat): (r: seq<T>)
    ensures |r| == if |s| <= n then |s| else n
    ensures r == s[|s| - |r|..]
  {
    if |s| <= n then s else s[|s| - n..]
  }

  /** `deque.append(x)` on a deque bounded by `maxlen`. */
  function Append<T>(h: seq<T>, x: T, maxlen: nat): seq<T> {
    Newest(h + [x], maxlen)
  }

  /** Appending to a deque that is not full keeps everything; appending to a full one
      drops exactly the oldest element; the new element is always last unless `maxlen` is 0,
      and the length never exceeds `maxlen`. */
  lemma AppendSpec<T>(h: seq<T>, x: T, maxlen: nat)
    requires |h| <= maxlen
    ensures |Append(h, x, maxlen)| <= maxlen
    ensures |h| < maxlen ==> Append(h, x, maxlen) == h + [x]
    ensures 0 < |h| == maxlen ==> Append(h, x, maxlen) == h[1..] + [x]
    ensures maxlen == 0 ==> Append(h, x, maxlen) == []
    ensures maxlen > 0 ==> Append(h, x, maxlen)[|Append(h, x, maxlen)| - 1] == x
  {
    if 0 < |h| == maxlen {
      assert (h + [x])[1..] == h[1..] + [x];
    }
  }

  /** Appending each of `xs` in turn. */
  function AppendAll<T>(h: seq<T>, xs: seq<T>, maxlen: nat): seq<T>
    decreases |xs|
  {
    if xs == [] then h else AppendAll(Append(h, xs[0], maxlen), xs[1..], maxlen)
  }

  /** Trimming before appending more and trimming again is the same as trimming once. */
  lemma NewestOfNewest<T>(s: seq<T>, t: seq<T>, n: nat)
    ensures Newest(Newest(s, n) + t, n) == Newest(s + t, n)
  {
    var a := Newest(s, n);
    if |a + t| > n && |s| > n {
      assert (a + t)[|a + t| - n..] == (s + t)[|s + t| - n..];
    }
  }

  /** Retention: starting from a deque within its bound, whatever arrives, the deque holds
      exactly the `maxlen` most recent elements, oldest first. */
  lemma {:induction false} AppendAllNewest<T>(h: seq<T>, xs: seq<T>, maxlen: nat)
    requires |h| <= maxlen
    ensures AppendAll(h, xs, maxlen) == Newest(h + xs, maxlen)
    decreases |xs|
  {
    if xs == [] {
      assert h + xs == h;
    } else {
      var x := xs[0];
      var rest := xs[1..];
      var h' := Append(h, x, maxlen);
      assert h + xs == (h + [x]) + rest by {
        assert xs == [x] + rest;
      }
      calc {
        AppendAll(h, xs, maxlen);
        AppendAll(h', rest, maxlen);
        { AppendAllNewest(h', rest, maxlen); }
        Newest(h' + rest, maxlen);
        { NewestOfNewest(h + [x], rest, maxlen); }
        Newest((h + [x]) + rest, maxlen);
      }
    }
  }

  /** Capacity 2, arrivals R1, R2, R3: the deque ends as [R2, R3]. */
  lemma CapacityTwoExample()
    ensures AppendAll([], ["R1", "R2", "R3"], 2) == ["R2", "R3"]
  {
    AppendAllNewest([], ["R1", "R2", "R3"], 2);
    assert [] + ["R1", "R2", "R3"] == ["R1", "R2", "R3"];
  }
}

=== FILE: html_escape.dfy ===
/** Python's `html.escape(s, quote=True)`, stated as a substitution of single characters:
    `&` becomes `&amp;`, `<` becomes `&lt;`, `>` becomes `&gt;`, `"` becomes `&quot;`
    and `'` becomes `&#x27;`. Replacing `&` first, as Python does, is what makes the
    whole-string replacements equal to this character-by-character one. */
module HtmlEscape {
  import opened Text

  predicate IsSpecial(c: char) {
    c == '&' || c == '<' || c == '>' || c == '"' || c == '\''
  }

  /** No character of `s` would be rewritten by the escape. */
  predicate IsPlain(s: string) {
    forall i :: 0 <= i < |s| ==> !IsSpecial(s[i])
  }

  /** No character of `s` can open or close a tag or end a quoted attribute. */
  predicate IsMarkupFree(s: string) {
    forall i :: 0 <= i < |s| ==> s[i] != '<' && s[i] != '>' && s[i] != '"' && s[i] != '\''
  }

  function EscapeChar(c: char): string {
    match c
    case '&' => "&amp;"
    case '<' => "&lt;"
    case '>' => "&gt;"
    case '"' => "&quot;"
    case '\'' => "&#x27;"
    case _ => [c]
  }

  function Escape(s: string): (r: string)
    ensures IsMarkupFree(r)
    ensures |r| >= |s|
  {
    if s == [] then []
    else
      var head := EscapeChar(s[0]);
      var tail := Escape(s[1..]);
      EscapeCharMarkupFree(s[0]);
      MarkupFreeConcat(head, tail);
      head + tail
  }

  lemma EscapeCharMarkupFree(c: char)
    ensures IsMarkupFree(EscapeChar(c))
    ensures |EscapeChar(c)| >= 1
  {
  }

  lemma MarkupFreeConcat(a: string, b: string)
    requires IsMarkupFree(a) && IsMarkupFree(b)
    ensures IsMarkupFree(a + b)
  {
    forall i | 0 <= i < |a + b|
      ensures (a + b)[i] != '<' && (a + b)[i] != '>' && (a + b)[i] != '"' && (a + b)[i] != '\''
    {
      if i < |a| {
        assert (a + b)[i] == a[i];
      } else {
        assert (a + b)[i] == b[i - |a|];
      }
    }
  }

  /** The inverse of `Escape`: decode the five entities it produces, keep everything else. */
  function Unescape(t: string): string
    decreases |t|
  {
    if t == [] then []
    else if StartsWith(t, "&amp;") then "&" + Unescape(t[5..])
    else if StartsWith(t, "&lt;") then "<" + Unescape(t[4..])
    else if StartsWith(t, "&gt;") then ">" + Unescape(t[4..])
    else if StartsWith(t, "&quot;") then "\"" + Unescape(t[6..])
    else if StartsWith(t, "&#x27;") then "'" + Unescape(t[6..])
    else [t[0]] + Unescape(t[1..])
  }

  /** Escaping works character by character, so it distributes over concatenation. */
  lemma {:induction false} EscapeConcat(a: string, b: string)
    ensures Escape(a + b) == Escape(a) + Escape(b)
  {
    if a == [] {
      assert a + b == b;
    } else {
      assert (a + b)[0] == a[0] && (a + b)[1..] == a[1..] + b;
      EscapeConcat(a[1..], b);
    }
  }

  /** Text without special characters passes through unchanged. */
  lemma {:induction false} EscapePlain(s: string)
    requires IsPlain(s)
    ensures Escape(s) == s
  {
    if s != [] {
      EscapePlain(s[1..]);
    }
  }

  /** Decoding one escaped character peels exactly that character off. */
  lemma UnescapeChar(c: char, rest: string)
    ensures Unescape(EscapeChar(c) + rest) == [c] + Unescape(rest)
  {
    match c
    case '&' => UnescapeAmp(rest);
    case '<' => UnescapeLt(rest);
    case '>' => UnescapeGt(rest);
    case '"' => UnescapeQuote(rest);
    case '\'' => UnescapeApostrophe(rest);
    case _ => UnescapeOther(c, rest);
  }

  lemma UnescapeAmp(rest: string)
    ensures Unescape("&amp;" + rest) == "&" + Unescape(rest)
  {
    var t := "&amp;" + rest;
    assert t[..5] == "&amp;" && t[5..] == rest;
  }

  lemma UnescapeLt(rest: string)
    ensures Unescape("&lt;" + rest) == "<" + Unescape(rest)
  {
    var t := "&lt;" + rest;
    assert !StartsWith(t, "&amp;") by { assert t[1] == 'l'; }
    assert t[..4] == "&lt;" && t[4..] == rest;
  }

  lemma UnescapeGt(rest: string)
    ensures Unescape("&gt;" + rest) == ">" + Unescape(rest)
  {
    var t := "&gt;" + rest;
    assert !StartsWith(t, "&amp;") && !StartsWith(t, "&lt;") by { assert t[1] == 'g'; }
    assert t[..4] == "&gt;" && t[4..] == rest;
  }

  lemma UnescapeQuote(rest: string)
    ensures Unescape("&quot;" + rest) == "\"" + Unescape(rest)
  {
    var t := "&quot;" + rest;
    assert !StartsWith(t, "&amp;") && !StartsWith(t, "&lt;") && !StartsWith(t, "&gt;") by {
      assert t[1] == 'q';
    }
    assert t[..6] == "&quot;" && t[6..] == rest;
  }

  lemma UnescapeApostrophe(rest: string)
    ensures Unescape("&#x27;" + rest) == "'" + Unescape(rest)
  {
    var t := "&#x27;" + rest;
    assert !StartsWith(t, "&amp;") && !StartsWith(t, "&lt;") && !StartsWith(t, "&gt;")
        && !StartsWith(t, "&quot;") by {
      assert t[1] == '#';
    }
    assert t[..6] == "&#x27;" && t[6..] == rest;
  }

  lemma UnescapeOther(c: char, rest: string)
    requires !IsSpecial(c)
    ensures Unescape([c] + rest) == [c] + Unescape(rest)
  {
    var t := [c] + rest;
    assert t[0] == c;
    assert !StartsWith(t, "&amp;") && !StartsWith(t, "&lt;") && !StartsWith(t, "&gt;")
        && !StartsWith(t, "&quot;") && !StartsWith(t, "&#x27;");
    assert t[1..] == rest;
  }

  /** Round trip: decoding the escaped text gives the original text back, so the escape
      loses nothing. */
  lemma {:induction false} UnescapeEscape(s: string)
    ensures Unescape(Escape(s)) == s
  {
    if s != [] {
      UnescapeChar(s[0], Escape(s[1..]));
      UnescapeEscape(s[1..]);
    }
  }
}

=== FILE: log_handler.dfy ===
/** `LogHandler_for_QTextLog`: formats a record as escaped HTML and forwards it to the
    router, detaching itself from its logger when the widget has been deleted. */
module LogHandler {
  import opened Text
  import opened HtmlEscape
  import opened Deque
  import opened LogMessage
  import opened LogRouter

  datatype Handler = Handler(name: string, id: HandlerRef)

  /** The logger the handler was attached to: only its handler list matters here. */
  datatype Logger = Logger(handlers: seq<HandlerRef>)

  /** Python's `%.Ns`: at most the first `n` characters. */
  function Truncate(s: string, n: nat): (r: string)
    ensures |r| == if |s| <= n then |s| else n
    ensures r == s[..|r|]
  {
    if |s| <= n then s else s[..n]
  }

  /** The default format `%(asctime).19s %(name)s: %(message)s [%(module)s.%(funcName)s]`;
      `logging.Formatter` produces the field values. A full-width timestamp fills exactly the
      first 20 characters with the space after it, and the body follows. */
  function DefaultFormat(asctime: string, name: string, message: string, moduleName: string,
                         funcName: string): (line: string)
    ensures |asctime| >= TimestampLen ==>
              && |line| >= 1 + TimestampLen
              && line[..1 + TimestampLen] == asctime[..TimestampLen] + " "
              && line[1 + TimestampLen..] == DefaultFormatBody(name, message, moduleName, funcName)
    ensures |asctime| < TimestampLen ==>
              && |line| > |asctime|
              && line[..|asctime|] == asctime
              && line[|asctime|] == ' '
              && line[|asctime| + 1..] == DefaultFormatBody(name, message, moduleName, funcName)
  {
    Truncate(asctime, TimestampLen) + " " + DefaultFormatBody(name, message, moduleName, funcName)
  }

  /** The part of the default format after the timestamp and its space. */
  function DefaultFormatBody(name: string, message: string, moduleName: string, funcName: string): string {
    name + ": " + message + " [" + moduleName + "." + funcName + "]"
  }

  /** The tag opened before the `<pre>`. */
  function SpanOpen(levelName: string): string {
    "<span class=\"" + levelName + "\">"
  }

  /** The closing tags after the payload. */
  const SpanClose: string := "</pre></span>"

  /** `'<span class="%s"><pre>%s</pre></span>' % (record.levelname, html.escape(formatted))`:
      the payload between `<pre>` and `</pre>` holds no raw markup and decodes back to the
      formatted line. */
  function HtmlLogMessage(levelName: string, formatted: string): (m: string)
    ensures |SpanOpen(levelName) + PreTag| + |SpanClose| <= |m|
    ensures m[..|SpanOpen(levelName) + PreTag|] == SpanOpen(levelName) + PreTag
    ensures m[|m| - |SpanClose|..] == SpanClose
    ensures IsMarkupFree(m[|SpanOpen(levelName) + PreTag|..|m| - |SpanClose|])
    ensures Unescape(m[|SpanOpen(levelName) + PreTag|..|m| - |SpanClose|]) == formatted
  {
    var head := SpanOpen(levelName) + PreTag;
    var m := head + Escape(formatted) + SpanClose;
    assert m[|head|..|m| - |SpanClose|] == Escape(formatted);
    assert m[..|head|] == head;
    UnescapeEscape(formatted);
    m
  }

  /** The position of the first occurrence of `x` (`list.index(x)`). */
  function FirstIndex(s: seq<HandlerRef>, x: HandlerRef): (i: nat)
    requires x in s
    ensures i < |s| && s[i] == x && x !in s[..i]
  {
    if s[0] == x then 0
    else
      var i := FirstIndex(s[1..], x);
      assert s[..i + 1] == [s[0]] + s[1..][..i];
      i + 1
  }

  /** `list.remove(x)`: drop the first occurrence of `x`, keeping the order of the rest. */
  function RemoveFirst(s: seq<HandlerRef>, x: HandlerRef): (r: seq<HandlerRef>)
    requires x in s
    ensures |r| == |s| - 1
    ensures multiset(r) == multiset(s) - multiset{x}
    ensures r[..FirstIndex(s, x)] == s[..FirstIndex(s, x)]
    ensures r[FirstIndex(s, x)..] == s[FirstIndex(s, x) + 1..]
  {
    var i := FirstIndex(s, x);
    assert s == s[..i] + [s[i]] + s[i + 1..];
    s[..i] + s[i + 1..]
  }

  /** How `emit` ended: normally, after the handler removed itself from its logger, or with
      the `ValueError` that `list.remove` raises when the handler is not in the list. */
  datatype EmitOutcome = Returned | Detached | RemoveFailed

  datatype EmitResult = EmitResult(router: Router, logger: Logger, outcome: EmitOutcome)

  /** `emit(record)`, with `formatted = self.format(record)` and `widgetAlive` saying whether
      the Qt widget still exists. On a deleted widget the history append (plain Python)
      still happens; the `RuntimeError` comes from the first Qt call, which `log_message`
      makes only for a visible source. The error is printed and the handler detached. */
  function Emit(h: Handler, logger: Logger, r: Router, levelName: string, formatted: string,
                widgetAlive: bool): (res: EmitResult)
    requires Valid(r)
    ensures Valid(res.router)
    ensures res.router.history == Append(r.history, LogLine(h.name, HtmlLogMessage(levelName, formatted)), r.capacity)
    ensures widgetAlive ==> res.outcome == Returned && res.logger == logger
    ensures widgetAlive ==> res.router == LogMessageTo(r, h.name, HtmlLogMessage(levelName, formatted))
    ensures !widgetAlive ==> res.router.sink == r.sink
    ensures !widgetAlive ==> res.router == r.(history := res.router.history)
    ensures res.outcome == Detached <==> !widgetAlive && Visible(r, h.name) && h.id in logger.handlers
    ensures res.outcome == RemoveFailed <==> !widgetAlive && Visible(r, h.name) && h.id !in logger.handlers
    ensures res.outcome == Detached ==> res.logger.handlers == RemoveFirst(logger.handlers, h.id)
    ensures res.outcome != Detached ==> res.logger == logger
  {
    var message := HtmlLogMessage(levelName, formatted);
    if widgetAlive then
      EmitResult(LogMessageTo(r, h.name, message), logger, Returned)
    else
      var stored := LogMessageTo(r, h.name, message).(sink := r.sink);
      if !Visible(r, h.name) then EmitResult(stored, logger, Returned)
      else if h.id in logger.handlers then
        EmitResult(stored, Logger(RemoveFirst(logger.handlers, h.id)), Detached)
      else EmitResult(stored, logger, RemoveFailed)
  }

  /** The first `<pre>` of an emitted message is the one after the span tag, when the level
      name has no `<` in it (true of the standard level names and of `Level N`). */
  lemma PreTagAfterSpan(levelName: string, rest: string)
    requires forall i :: 0 <= i < |levelName| ==> levelName[i] != '<'
    ensures FirstAt(SpanOpen(levelName) + PreTag + rest, PreTag, |SpanOpen(levelName)|)
  {
    var s := SpanOpen(levelName) + PreTag + rest;
    var n := |SpanOpen(levelName)|;
    assert s[n..n + |PreTag|] == PreTag;
    forall j | 0 <= j < n ensures !OccursAt(s, PreTag, j) {
      if j == 0 {
        assert s[1] == 's';
      } else if j + |PreTag| <= |s| {
        assert s[j..j + |PreTag|][0] == s[j];
        if j < 13 {
          assert s[j] == "<span class=\""[j];
        } else if j < 13 + |levelName| {
          assert s[j] == levelName[j - 13];
        } else {
          assert s[j] == "\">"[j - 13 - |levelName|];
        }
      }
    }
  }

  /** Stripping an emitted message keeps the span and the `<pre>` and drops the first 20
      characters of the escaped payload. */
  lemma StripEmitted(levelName: string, formatted: string)
    requires forall i :: 0 <= i < |levelName| ==> levelName[i] != '<'
    ensures StripTimestamp(HtmlLogMessage(levelName, formatted))
            == SpanOpen(levelName) + PreTag + DropPrefix(Escape(formatted) + SpanClose, 1 + TimestampLen)
  {
    var tail := Escape(formatted) + SpanClose;
    var m := SpanOpen(levelName) + PreTag + tail;
    assert HtmlLogMessage(levelName, formatted) == m;
    PreTagAfterSpan(levelName, tail);
    var n := |SpanOpen(levelName)|;
    assert m[..n] == SpanOpen(levelName);
    assert m[n + |PreTag|..] == tail;
  }

  /** The first `timestamp_len` characters of a plain `asctime`, and the space after them. */
  lemma PlainStamp(asctime: string)
    requires |asctime| >= TimestampLen
    requires IsPlain(asctime[..TimestampLen])
    ensures |Truncate(asctime, TimestampLen) + " "| == 1 + TimestampLen
    ensures IsPlain(Truncate(asctime, TimestampLen) + " ")
  {
    var stamp := Truncate(asctime, TimestampLen) + " ";
    forall i | 0 <= i < |stamp| ensures !IsSpecial(stamp[i]) {
      if i < TimestampLen {
        assert stamp[i] == asctime[..TimestampLen][i];
      }
    }
  }

  /** A plain 20-character head passes the escape unchanged, so dropping 20 characters of the
      escaped payload removes exactly that head. */
  lemma DropPlainHead(stamp: string, body: string)
    requires IsPlain(stamp) && |stamp| == 1 + TimestampLen
    ensures DropPrefix(Escape(stamp + body) + SpanClose, 1 + TimestampLen) == Escape(body) + SpanClose
  {
    EscapeConcat(stamp, body);
    EscapePlain(stamp);
    var tail := Escape(stamp + body) + SpanClose;
    assert tail == stamp + (Escape(body) + SpanClose);
  }

  /** With the default format and a full-width timestamp made of plain characters (digits,
      `-`, `:` and spaces), hiding timestamps removes exactly the timestamp and the space after
      it and leaves the rest of the escaped line intact. */
  lemma StripRemovesDefaultTimestamp(levelName: string, asctime: string, name: string, message: string,
                                     moduleName: string, funcName: string)
    requires forall i :: 0 <= i < |levelName| ==> levelName[i] != '<'
    requires |asctime| >= TimestampLen
    requires IsPlain(asctime[..TimestampLen])
    ensures StripTimestamp(HtmlLogMessage(levelName, DefaultFormat(asctime, name, message, moduleName, funcName)))
            == SpanOpen(levelName) + PreTag + Escape(DefaultFormatBody(name, message, moduleName, funcName)) + SpanClose
  {
    var stamp := Truncate(asctime, TimestampLen) + " ";
    var body := DefaultFormatBody(name, message, moduleName, funcName);
    assert DefaultFormat(asctime, name, message, moduleName, funcName) == stamp + body;
    PlainStamp(asctime);
    StripEmitted(levelName, stamp + body);
    DropPlainHead(stamp, body);
  }

  /** Through the router: with timestamps hidden, an emitted record from an html source shows
      without its timestamp; with timestamps shown, it shows as emitted. `source` is the
      handler's name, which routes the record; `name` is the record's logger name, which the
      format prints. The two differ for a child logger's record. */
  lemma EmittedRecordDisplay(levelName: string, asctime: string, source: string, name: string,
                             message: string, moduleName: string, funcName: string)
    requires forall i :: 0 <= i < |levelName| ==> levelName[i] != '<'
    requires |asctime| >= TimestampLen
    requires IsPlain(asctime[..TimestampLen])
    requires source != ErrorsSource
    ensures var line := LogLine(source, HtmlLogMessage(levelName, DefaultFormat(asctime, name, message, moduleName, funcName)));
            && Render(line, false) == SinkLine(SpanOpen(levelName) + PreTag
                 + Escape(DefaultFormatBody(name, message, moduleName, funcName)) + SpanClose, Html)
            && Render(line, true) == SinkLine(line.record, Html)
  {
    StripRemovesDefaultTimestamp(levelName, asctime, name, message, moduleName, funcName);
  }
}

=== FILE: log_message.dfy ===
/** `QTextEditLogger.log_message`: how one message reaches the text widget. The widget is
    abstracted as a sequence of sink lines; each call adds one (the new text block). */
module LogMessage {
  import opened Text

  /** `QTextEditLogger.timestamp_len`: the width of the timestamp the default format emits. */
  const TimestampLen: nat := 19

  /** The opening tag the handler wraps a record's text in, and after which the timestamp sits. */
  const PreTag: string := "<pre>"

  /** The value passed as `format_as_html`: a Python `bool` or `int`. */
  datatype FormatArg = PyBool(b: bool) | PyInt(i: int)

  /** How the widget takes a message: `insertHtml` after the timestamp strip, `insertHtml`
      as is, or `insertText` as plain text. */
  datatype Kind = Html | RawHtml | Plain

  datatype SinkLine = SinkLine(text: string, kind: Kind)

  /** The branch `log_message` takes. `format_as_html == True` also holds for the integer 1,
      since Python's `True == 1`; `== 2` holds only for the integer 2. */
  function KindOf(arg: FormatArg): (k: Kind)
    ensures k == Html <==> arg == PyBool(true) || arg == PyInt(1)
    ensures k == RawHtml <==> arg == PyInt(2)
  {
    match arg
    case PyBool(b) => if b then Html else Plain
    case PyInt(i) => if i == 1 then Html else if i == 2 then RawHtml else Plain
  }

  /** The timestamp strip: split on the first `<pre>` and drop `1 + timestamp_len` characters
      of what follows it (the timestamp and the space after it); a message without `<pre>`
      is left alone. */
  function StripTimestamp(message: string): (r: string)
    ensures forall i: nat :: FirstAt(message, PreTag, i) ==>
              r == message[..i] + PreTag + DropPrefix(message[i + |PreTag|..], 1 + TimestampLen)
    ensures Absent(message, PreTag) ==> r == message
  {
    var res := SplitOnce(message, PreTag);
    if |res| == 2 then res[0] + PreTag + DropPrefix(res[1], 1 + TimestampLen) else message
  }

  /** `log_message(message, format_as_html)` with the timestamp display flag. */
  function LogMessage(message: string, arg: FormatArg, showTimestamps: bool): (line: SinkLine)
    ensures line.kind == KindOf(arg)
    ensures line.kind != Html || showTimestamps ==> line.text == message
    ensures line.kind == Html && !showTimestamps ==> line.text == StripTimestamp(message)
  {
    match KindOf(arg)
    case Html => SinkLine(if showTimestamps then message else StripTimestamp(message), Html)
    case RawHtml => SinkLine(message, RawHtml)
    case Plain => SinkLine(message, Plain)
  }

  /** The strip keeps the text before the first `<pre>` and the tag itself, and removes exactly
      the 20 characters after it, or all of them when fewer follow. */
  lemma StripLength(message: string, i: nat)
    requires FirstAt(message, PreTag, i)
    ensures StripTimestamp(message)[..i + |PreTag|] == message[..i + |PreTag|]
    ensures |StripTimestamp(message)| ==
            if i + |PreTag| + 1 + TimestampLen <= |message| then |message| - (1 + TimestampLen)
            else i + |PreTag|
  {
    assert message[..i + |PreTag|] == message[..i] + PreTag;
  }
}

=== FILE: log_router.dfy ===
/** The state machine inside `QTextEditLogger`, with the Qt widget replaced by a sequence of
    sink lines: a bounded history of `(source, record)` pairs, an insertion-ordered map from
    source name to a visibility flag, the handler registered for each source, and the
    timestamp and autoscroll flags. */
module LogRouter {
  import opened OrderedDict
  import opened Deque
  import opened LogMessage

  /** Identity of a `LogHandler_for_QTextLog` object. */
  type HandlerRef = nat

  /** One entry of `logged_lines`. */
  datatype LogLine = LogLine(source: string, record: string)

  datatype Router = Router(
    capacity: nat,                          // `config.GUI_CONFIG.logger.num_lines`
    history: seq<LogLine>,                  // `logged_lines`
    tracked: Dict<string, bool>,            // `tracked_loggers`
    handlers: Dict<string, HandlerRef>,     // `handlers`
    showTimestamps: bool,                   // `action_show_times.isChecked()`, which `log_message` reads
    autoScroll: bool,                       // `_auto_scroll`
    sink: seq<SinkLine>)                    // what the text widget shows

  /** The state the widget starts in: nothing logged, no source, timestamps hidden,
      autoscroll on. */
  function Init(capacity: nat): (r: Router)
    ensures Valid(r)
  {
    Router(capacity, [], [], [], false, true, [])
  }

  /** What every reachable state satisfies. */
  ghost predicate Valid(r: Router) {
    && |r.history| <= r.capacity
    && DistinctKeys(r.tracked)
    && DistinctKeys(r.handlers)
    && Keys(r.tracked) == Keys(r.handlers)
  }

  /** The source whose records are shown as plain text. The source compares with `is`,
      identity of string objects; it is read here as string equality. That assumes every
      `'Errors'` name a caller passes is the interned literal: a name equal to `'Errors'` but
      built at run time fails `is` and is shown as html. */
  const ErrorsSource: string := "Errors"

  /** The `format_as_html` argument `log_message_to` and `show_all_messages` pass:
      `not (name is 'Errors')`. */
  function FormatFor(source: string): (arg: FormatArg)
    ensures KindOf(arg) == if source == ErrorsSource then Plain else Html
  {
    PyBool(!(source == ErrorsSource))
  }

  /** `get_all_checked`: the names whose flag is true, in registration order. */
  function CheckedNames(tracked: Dict<string, bool>): (names: seq<string>)
    ensures |names| <= |tracked|
    ensures forall n :: n in names <==> (n, true) in tracked
  {
    if tracked == [] then []
    else
      var last := |tracked| - 1;
      assert tracked == tracked[..last] + [tracked[last]];
      CheckedNames(tracked[..last]) + (if tracked[last].1 then [tracked[last].0] else [])
  }

  /** `name in self.get_all_checked()`. */
  predicate Visible(r: Router, name: string) {
    name in CheckedNames(r.tracked)
  }

  /** How one history entry is shown with the current timestamp setting. */
  function Render(line: LogLine, showTimestamps: bool): (s: SinkLine)
    ensures s.kind == if line.source == ErrorsSource then Plain else Html
  {
    LogMessage.LogMessage(line.record, FormatFor(line.source), showTimestamps)
  }

  /** `clear`: empty the widget. */
  function Clear(r: Router): (r': Router)
    ensures r'.sink == []
    ensures r' == r.(sink := r'.sink)
  {
    r.(sink := [])
  }

  /** `add_logger(name, handler)`: a name already tracked changes nothing; a new name is
      tracked as visible and its handler recorded, after every existing entry. */
  function AddLogger(r: Router, name: string, handler: HandlerRef): (r': Router)
    requires Valid(r)
    ensures Valid(r')
    ensures HasKey(r.tracked, name) ==> r' == r
    ensures !HasKey(r.tracked, name) ==>
              && r'.tracked == r.tracked + [(name, true)]
              && r'.handlers == r.handlers + [(name, handler)]
              && r' == r.(tracked := r'.tracked, handlers := r'.handlers)
  {
    if HasKey(r.tracked, name) then r
    else
      SetSpec(r.tracked, name, true);
      SetSpec(r.handlers, name, handler);
      r.(tracked := Set(r.tracked, name, true), handlers := Set(r.handlers, name, handler))
  }

  /** The `toggle_<name>` action created by `add_logger` (so only for a tracked name):
      set that one flag, without replaying. */
  function ToggleSource(r: Router, name: string, val: bool): (r': Router)
    requires Valid(r)
    requires HasKey(r.tracked, name)
    ensures Valid(r')
    ensures Keys(r'.tracked) == Keys(r.tracked)
    ensures Get(r'.tracked, name) == val
    ensures forall n :: n != name && HasKey(r.tracked, n) ==> Get(r'.tracked, n) == Get(r.tracked, n)
    ensures r' == r.(tracked := r'.tracked)
  {
    SetSpec(r.tracked, name, val);
    r.(tracked := Set(r.tracked, name, val))
  }

  /** `log_message_to(name, record)`: always store the entry in the bounded history; show it
      only when its source is visible. */
  function LogMessageTo(r: Router, name: string, record: string): (r': Router)
    requires Valid(r)
    ensures Valid(r')
    ensures r'.history == Append(r.history, LogLine(name, record), r.capacity)
    ensures Visible(r, name) ==> r'.sink == r.sink + [Render(LogLine(name, record), r.showTimestamps)]
    ensures !Visible(r, name) ==> r'.sink == r.sink
    ensures r' == r.(history := r'.history, sink := r'.sink)
  {
    var line := LogLine(name, record);
    AppendSpec(r.history, line, r.capacity);
    var stored := r.(history := Append(r.history, line, r.capacity));
    if Visible(r, name) then stored.(sink := r.sink + [Render(line, r.showTimestamps)]) else stored
  }

  /** The loop of `show_all_messages`: render, in order, the entries whose source is visible. */
  function Replay(h: seq<LogLine>, tracked: Dict<string, bool>, showTimestamps: bool): seq<SinkLine> {
    if h == [] then []
    else
      var last := |h| - 1;
      Replay(h[..last], tracked, showTimestamps)
        + (if h[last].source in CheckedNames(tracked) then [Render(h[last], showTimestamps)] else [])
  }

  /** `show_all_messages`: clear the widget and replay the history through the current filters. */
  function ShowAllMessages(r: Router): (r': Router)
    ensures r' == r.(sink := r'.sink)
  {
    Clear(r).(sink := Replay(r.history, r.tracked, r.showTimestamps))
  }

  /** `toggle_timestamps(checked)`: set the flag, then replay. */
  function ToggleTimestamps(r: Router, checked: bool): (r': Router)
    ensures r'.showTimestamps == checked
    ensures r'.sink == Replay(r.history, r.tracked, checked)
    ensures r' == r.(showTimestamps := checked, sink := r'.sink)
  {
    ShowAllMessages(r.(showTimestamps := checked))
  }

  /** `toggle_autoscroll(checked)`: only the autoscroll flag changes. */
  function ToggleAutoscroll(r: Router, checked: bool): (r': Router)
    ensures r'.autoScroll == checked
    ensures r' == r.(autoScroll := r'.autoScroll)
  {
    r.(autoScroll := checked)
  }
}

=== FILE: log_router_props.dfy ===
/** Properties of the log router across several operations: retention, filtering, replay. */
module LogRouterProps {
  import opened OrderedDict
  import opened Deque
  import opened LogMessage
  import opened LogRouter

  /** The history entries whose source is visible under `tracked`, in history order. */
  function VisibleEntries(h: seq<LogLine>, tracked: Dict<string, bool>): (v: seq<LogLine>)
    ensures forall e :: e in v <==> e in h && e.source in CheckedNames(tracked)
  {
    if h == [] then []
    else
      var last := |h| - 1;
      assert h == h[..last] + [h[last]];
      VisibleEntries(h[..last], tracked) + (if h[last].source in CheckedNames(tracked) then [h[last]] else [])
  }

  /** Every line rendered, one sink line per entry, in order. */
  function RenderAll(lines: seq<LogLine>, showTimestamps: bool): (out: seq<SinkLine>)
    ensures |out| == |lines|
    ensures forall i :: 0 <= i < |lines| ==> out[i] == Render(lines[i], showTimestamps)
  {
    seq(|lines|, i requires 0 <= i < |lines| => Render(lines[i], showTimestamps))
  }

  /** `get_all_checked` keeps registration order: it distributes over concatenation. */
  lemma {:induction false} CheckedNamesConcat(a: Dict<string, bool>, b: Dict<string, bool>)
    ensures CheckedNames(a + b) == CheckedNames(a) + CheckedNames(b)
  {
    if b == [] {
      assert a + b == a;
    } else {
      var n := |b| - 1;
      assert (a + b)[..|a + b| - 1] == a + b[..n];
      assert (a + b)[|a + b| - 1] == b[n];
      CheckedNamesConcat(a, b[..n]);
    }
  }

  /** A source is visible exactly when it is tracked and its flag is true. */
  lemma VisibleIff(r: Router, name: string)
    requires Valid(r)
    ensures Visible(r, name) <==> HasKey(r.tracked, name) && Get(r.tracked, name)
  {
    if Visible(r, name) {
      var i :| 0 <= i < |r.tracked| && r.tracked[i] == (name, true);
      GetAt(r.tracked, i);
    } else if HasKey(r.tracked, name) {
      var i := IndexOf(r.tracked, name);
      GetAt(r.tracked, i);
      assert r.tracked[i] == (name, Get(r.tracked, name));
    }
  }

  /** A registered source starts visible; registering changes no other source's visibility,
      and registering a tracked name again is a no-op. */
  lemma AddLoggerVisibility(r: Router, name: string, handler: HandlerRef, other: string)
    requires Valid(r)
    ensures !HasKey(r.tracked, name) ==> Visible(AddLogger(r, name, handler), name)
    ensures other != name ==> (Visible(AddLogger(r, name, handler), other) <==> Visible(r, other))
    ensures AddLogger(AddLogger(r, name, handler), name, handler) == AddLogger(r, name, handler)
  {
    var r' := AddLogger(r, name, handler);
    if !HasKey(r.tracked, name) {
      CheckedNamesConcat(r.tracked, [(name, true)]);
      assert CheckedNames([(name, true)]) == [name];
      assert Keys(r'.tracked)[|r.tracked|] == name;
    }
  }

  /** The per-source toggle makes that source's visibility its new value and leaves every
      other source's visibility, the history and the widget alone. */
  lemma ToggleSourceVisibility(r: Router, name: string, val: bool, other: string)
    requires Valid(r)
    requires HasKey(r.tracked, name)
    ensures Visible(ToggleSource(r, name, val), name) == val
    ensures other != name ==> (Visible(ToggleSource(r, name, val), other) <==> Visible(r, other))
    ensures ToggleSource(r, name, val).sink == r.sink
    ensures ToggleSource(r, name, val).history == r.history
  {
    var r' := ToggleSource(r, name, val);
    VisibleIff(r', name);
    VisibleIff(r', other);
    VisibleIff(r, other);
    assert HasKey(r'.tracked, other) <==> HasKey(r.tracked, other);
  }

  /** The replay loop renders exactly the visible entries, in history order. */
  lemma {:induction false} ReplayIsRenderOfVisible(h: seq<LogLine>, tracked: Dict<string, bool>, ts: bool)
    ensures Replay(h, tracked, ts) == RenderAll(VisibleEntries(h, tracked), ts)
  {
    if h != [] {
      var last := |h| - 1;
      ReplayIsRenderOfVisible(h[..last], tracked, ts);
    }
  }

  /** Replaying a concatenation replays each part. */
  lemma {:induction false} ReplayConcat(a: seq<LogLine>, b: seq<LogLine>, tracked: Dict<string, bool>, ts: bool)
    ensures Replay(a + b, tracked, ts) == Replay(a, tracked, ts) + Replay(b, tracked, ts)
  {
    if b == [] {
      assert a + b == a;
    } else {
      var n := |b| - 1;
      assert (a + b)[..|a + b| - 1] == a + b[..n];
      assert (a + b)[|a + b| - 1] == b[n];
      ReplayConcat(a, b[..n], tracked, ts);
    }
  }

  /** `show_all_messages` leaves the widget showing exactly the visible history, rendered in
      history order; it changes nothing but the widget. */
  lemma ShowAllMessagesSpec(r: Router)
    ensures ShowAllMessages(r).sink == RenderAll(VisibleEntries(r.history, r.tracked), r.showTimestamps)
    ensures ShowAllMessages(r).history == r.history && ShowAllMessages(r).tracked == r.tracked
    ensures ShowAllMessages(ShowAllMessages(r)) == ShowAllMessages(r)
  {
    ReplayIsRenderOfVisible(r.history, r.tracked, r.showTimestamps);
  }

  /** `toggle_timestamps` re-renders exactly the visible history with the new setting, and
      changes neither the history nor the registry. */
  lemma ToggleTimestampsSpec(r: Router, checked: bool)
    ensures ToggleTimestamps(r, checked).sink == RenderAll(VisibleEntries(r.history, r.tracked), checked)
    ensures ToggleTimestamps(r, checked).history == r.history
    ensures ToggleTimestamps(r, checked).tracked == r.tracked
  {
    ReplayIsRenderOfVisible(r.history, r.tracked, checked);
  }

  /** After hiding a source and replaying, no shown line comes from that source, and every
      other visible entry is still shown. */
  lemma HiddenSourceNotReplayed(r: Router, name: string)
    requires Valid(r)
    requires HasKey(r.tracked, name)
    ensures ShowAllMessages(ToggleSource(r, name, false)).sink
            == RenderAll(VisibleEntries(r.history, ToggleSource(r, name, false).tracked), r.showTimestamps)
    ensures forall e :: e in VisibleEntries(r.history, ToggleSource(r, name, false).tracked) ==> e.source != name
    ensures forall e :: e in r.history && e.source != name && Visible(r, e.source) ==>
              e in VisibleEntries(r.history, ToggleSource(r, name, false).tracked)
  {
    var r' := ToggleSource(r, name, false);
    ShowAllMessagesSpec(r');
    ToggleSourceVisibility(r, name, false, name);
    forall e | e in r.history && e.source != name && Visible(r, e.source)
      ensures e.source in CheckedNames(r'.tracked)
    {
      ToggleSourceVisibility(r, name, false, e.source);
    }
  }

  /** A record for a name that was never registered is stored but not shown while the name
      stays unregistered, and does not register the name: only `add_logger` adds to the
      registry. */
  lemma UnregisteredNotShown(r: Router, name: string, record: string)
    requires Valid(r)
    requires !HasKey(r.tracked, name)
    ensures LogMessageTo(r, name, record).sink == r.sink
    ensures LogMessageTo(r, name, record).tracked == r.tracked
    ensures LogMessageTo(r, name, record).history == Append(r.history, LogLine(name, record), r.capacity)
    ensures !Visible(ShowAllMessages(LogMessageTo(r, name, record)), name)
  {
    VisibleIff(r, name);
  }

  /** The stored record of an unregistered name comes back: once `add_logger` registers the
      name, the next replay ends with it (when the history keeps anything at all). */
  lemma UnregisteredShownOnceAdded(r: Router, name: string, record: string, handler: HandlerRef)
    requires Valid(r)
    requires !HasKey(r.tracked, name)
    ensures var shown := ShowAllMessages(AddLogger(LogMessageTo(r, name, record), name, handler)).sink;
            r.capacity > 0 ==> |shown| > 0 && shown[|shown| - 1] == Render(LogLine(name, record), r.showTimestamps)
  {
    var line := LogLine(name, record);
    var logged := LogMessageTo(r, name, record);
    var added := AddLogger(logged, name, handler);
    if r.capacity > 0 {
      var h := added.history;
      assert h == Append(r.history, line, r.capacity);
      AppendSpec(r.history, line, r.capacity);
      var last := |h| - 1;
      assert h == h[..last] + [line];
      AddLoggerVisibility(logged, name, handler, name);
      ReplayAppendOne(h[..last], line, added.tracked, added.showTimestamps);
    }
  }

  /** `a` is what the end of `b` holds. */
  ghost predicate IsSuffix<T>(a: seq<T>, b: seq<T>) {
    |a| <= |b| && b[|b| - |a|..] == a
  }

  lemma SuffixTransitive<T>(a: seq<T>, b: seq<T>, c: seq<T>)
    requires IsSuffix(a, b) && IsSuffix(b, c)
    ensures IsSuffix(a, c)
  {
    assert c[|c| - |a|..] == c[|c| - |b|..][|b| - |a|..];
  }

  lemma SuffixExtend<T>(a: seq<T>, b: seq<T>, x: seq<T>)
    requires IsSuffix(a, b)
    ensures IsSuffix(a + x, b + x)
  {
    assert (b + x)[|b + x| - |a + x|..] == b[|b| - |a|..] + x;
  }

  /** The widget is in step with the history: replaying the history would show the newest
      lines the widget shows. Lines of entries evicted from the history stay on screen. */
  ghost predicate InStep(r: Router) {
    IsSuffix(Replay(r.history, r.tracked, r.showTimestamps), r.sink)
  }

  /** Replaying a suffix of the history gives a suffix of the replay of the whole. */
  lemma ReplaySuffix(h: seq<LogLine>, k: nat, tracked: Dict<string, bool>, ts: bool)
    requires k <= |h|
    ensures IsSuffix(Replay(h[k..], tracked, ts), Replay(h, tracked, ts))
  {
    assert h == h[..k] + h[k..];
    ReplayConcat(h[..k], h[k..], tracked, ts);
  }

  /** Replaying one more entry adds its rendering exactly when its source is visible. */
  lemma ReplayAppendOne(h: seq<LogLine>, line: LogLine, tracked: Dict<string, bool>, ts: bool)
    ensures Replay(h + [line], tracked, ts)
            == Replay(h, tracked, ts) + (if line.source in CheckedNames(tracked) then [Render(line, ts)] else [])
  {
    assert (h + [line])[..|h|] == h;
  }

  /** A replay puts the widget in step; so does a timestamp toggle. */
  lemma ShowAllMessagesInStep(r: Router, checked: bool)
    ensures InStep(ShowAllMessages(r))
    ensures InStep(ToggleTimestamps(r, checked))
  {
  }

  /** What `log_message_to` adds to the widget: the rendering of the entry when its source is
      visible, nothing otherwise. */
  lemma LogMessageToSink(r: Router, name: string, record: string)
    requires Valid(r)
    ensures LogMessageTo(r, name, record).sink
            == r.sink + (if Visible(r, name) then [Render(LogLine(name, record), r.showTimestamps)] else [])
  {
    if !Visible(r, name) {
      assert r.sink + [] == r.sink;
    }
  }

  /** Logging keeps the widget in step with the history: the incremental output of
      `log_message_to` agrees with what a replay would show. */
  lemma LogMessageToInStep(r: Router, name: string, record: string)
    requires Valid(r)
    requires InStep(r)
    ensures InStep(LogMessageTo(r, name, record))
  {
    var line := LogLine(name, record);
    var r' := LogMessageTo(r, name, record);
    var ts := r.showTimestamps;
    var grown := r.history + [line];
    var added := if Visible(r, name) then [Render(line, ts)] else [];
    ReplayAppendOne(r.history, line, r.tracked, ts);
    LogMessageToSink(r, name, record);
    SuffixExtend(Replay(r.history, r.tracked, ts), r.sink, added);
    var k := |grown| - |r'.history|;
    assert r'.history == grown[k..];
    ReplaySuffix(grown, k, r.tracked, ts);
    SuffixTransitive(Replay(r'.history, r.tracked, ts), Replay(grown, r.tracked, ts), r'.sink);
  }

  /** Without eviction the widget shows exactly the replay of the history: a replay after
      a run of logging changes nothing on screen. */
  lemma LogMessageToMatchesReplay(r: Router, name: string, record: string)
    requires Valid(r)
    requires r.sink == Replay(r.history, r.tracked, r.showTimestamps)
    requires |r.history| < r.capacity
    ensures LogMessageTo(r, name, record) == ShowAllMessages(LogMessageTo(r, name, record))
  {
    var line := LogLine(name, record);
    AppendSpec(r.history, line, r.capacity);
    ReplayAppendOne(r.history, line, r.tracked, r.showTimestamps);
  }

  /** `log_message_to` for each pair in turn. */
  function LogAll(r: Router, lines: seq<LogLine>): (r': Router)
    requires Valid(r)
    ensures Valid(r')
    decreases |lines|
  {
    if lines == [] then r
    else LogAll(LogMessageTo(r, lines[0].source, lines[0].record), lines[1..])
  }

  /** Retention over any run of messages, visible or not: the history holds exactly the
      newest `capacity` entries, oldest first; the sources and flags do not change. */
  lemma {:induction false} LogAllRetains(r: Router, lines: seq<LogLine>)
    requires Valid(r)
    ensures LogAll(r, lines).history == Newest(r.history + lines, r.capacity)
    ensures LogAll(r, lines).tracked == r.tracked
    ensures LogAll(r, lines).showTimestamps == r.showTimestamps
    decreases |lines|
  {
    if lines == [] {
      assert r.history + lines == r.history;
    } else {
      var r1 := LogMessageTo(r, lines[0].source, lines[0].record);
      LogAllRetains(r1, lines[1..]);
      NewestOfNewest(r.history + [lines[0]], lines[1..], r.capacity);
      assert r.history + [lines[0]] + lines[1..] == r.history + lines;
    }
  }

  /** With timestamps shown, a replay shows every visible record exactly as it was logged;
      hiding the timestamps and showing them again gives the same screen. */
  lemma TimestampsRoundTrip(r: Router)
    ensures var shown := ToggleTimestamps(r, true);
            var entries := VisibleEntries(r.history, r.tracked);
            |shown.sink| == |entries| &&
            forall i :: 0 <= i < |entries| ==> shown.sink[i].text == entries[i].record
    ensures ToggleTimestamps(ToggleTimestamps(r, false), true) == ToggleTimestamps(r, true)
  {
    ShowAllMessagesSpec(r.(showTimestamps := true));
  }

  /** The sources A and B, registered in that order, both visible. */
  function TwoSources(): (r: Router)
    ensures Valid(r)
  {
    AddLogger(AddLogger(Init(10), "A", 1), "B", 2)
  }

  lemma TwoSourcesState()
    ensures TwoSources().tracked == [("A", true), ("B", true)]
    ensures TwoSources().history == []
    ensures TwoSources().capacity == 10
  {
    var r1 := AddLogger(Init(10), "A", 1);
    assert r1.tracked == [("A", true)];
    assert !HasKey(r1.tracked, "B") by { assert Keys(r1.tracked) == ["A"]; }
  }

  /** Both sources visible: `get_all_checked` lists A then B. */
  lemma BothChecked()
    ensures CheckedNames([("A", true), ("B", true)]) == ["A", "B"]
  {
    var t := [("A", true), ("B", true)];
    assert t[..1] == [("A", true)];
    assert t[..1][..0] == [];
  }

  /** Hiding A in the two-source registry leaves only B checked. */
  lemma HideA(t: Dict<string, bool>)
    requires t == [("A", true), ("B", true)]
    ensures HasKey(t, "A")
    ensures Set(t, "A", false) == [("A", false), ("B", true)]
    ensures CheckedNames(Set(t, "A", false)) == ["B"]
  {
    assert Keys(t)[0] == "A";
    assert IndexOf(t, "A") == 0;
    var t' := [("A", false), ("B", true)];
    assert t'[..1] == [("A", false)];
    assert t'[..1][..0] == [];
  }

  /** With only B visible, three records from A followed by one from B filter to B's. */
  lemma OnlyBVisible(lines: seq<LogLine>, tracked: Dict<string, bool>)
    requires CheckedNames(tracked) == ["B"]
    requires |lines| == 4 && lines[3].source == "B"
    requires lines[0].source == "A" && lines[1].source == "A" && lines[2].source == "A"
    ensures VisibleEntries(lines, tracked) == [lines[3]]
  {
    var p := lines[..3];
    assert VisibleEntries(p[..0], tracked) == [];
    assert VisibleEntries(p[..1], tracked) == [] by { assert p[..1][..0] == p[..0]; }
    assert VisibleEntries(p[..2], tracked) == [] by { assert p[..2][..1] == p[..1]; }
    assert VisibleEntries(p, tracked) == [] by { assert p[..2] == lines[..3][..2]; }
  }

  /** The replay of the scenario with both sources visible shows every record. */
  lemma ScenarioReplayAll(logged: Router, lines: seq<LogLine>)
    requires logged.tracked == [("A", true), ("B", true)]
    requires logged.history == lines
    requires |lines| == 4 && lines[3].source == "B"
    requires lines[0].source == "A" && lines[1].source == "A" && lines[2].source == "A"
    ensures ShowAllMessages(logged).sink == RenderAll(lines, logged.showTimestamps)
  {
    var names := CheckedNames(logged.tracked);
    assert names == ["A", "B"] by { BothChecked(); }
    assert forall i :: 0 <= i < |lines| ==> lines[i].source in names by {
      forall i | 0 <= i < |lines| ensures lines[i].source in names {
        if i < 3 { assert names[0] == "A"; } else { assert names[1] == "B"; }
      }
    }
    VisibleAll(lines, logged.tracked);
    ShowAllMessagesSpec(logged);
  }

  /** The replay of the scenario after hiding A shows only B's record. */
  lemma ScenarioReplayHidden(logged: Router, lines: seq<LogLine>)
    requires Valid(logged)
    requires logged.tracked == [("A", true), ("B", true)]
    requires logged.history == lines
    requires |lines| == 4 && lines[3].source == "B"
    requires lines[0].source == "A" && lines[1].source == "A" && lines[2].source == "A"
    ensures HasKey(logged.tracked, "A")
    ensures ShowAllMessages(ToggleSource(logged, "A", false)).sink
            == RenderAll([lines[3]], logged.showTimestamps)
  {
    HideA(logged.tracked);
    var hidden := ToggleSource(logged, "A", false);
    ShowAllMessagesSpec(hidden);
    OnlyBVisible(lines, hidden.tracked);
  }

  /** Two sources A and B, three records to A and then one to B, all retained (as
      `ScenarioLogged` shows `LogAll` does from an empty history): a replay shows all four in
      arrival order; after hiding A, a replay shows only B's record. */
  lemma TwoSourceScenario(logged: Router, lines: seq<LogLine>)
    requires Valid(logged)
    requires logged.tracked == [("A", true), ("B", true)]
    requires logged.history == lines
    requires |lines| == 4 && lines[3].source == "B"
    requires lines[0].source == "A" && lines[1].source == "A" && lines[2].source == "A"
    ensures ShowAllMessages(logged).sink == RenderAll(lines, logged.showTimestamps)
    ensures HasKey(logged.tracked, "A")
    ensures ShowAllMessages(ToggleSource(logged, "A", false)).sink
            == RenderAll([lines[3]], logged.showTimestamps)
  {
    ScenarioReplayAll(logged, lines);
    ScenarioReplayHidden(logged, lines);
  }

  /** Logging records into an empty history with room for all of them keeps them all, in
      order, and leaves the registry and the timestamp flag alone. */
  lemma ScenarioLogged(r: Router, lines: seq<LogLine>)
    requires Valid(r)
    requires r.history == [] && r.capacity >= |lines|
    ensures Valid(LogAll(r, lines))
    ensures LogAll(r, lines).history == lines
    ensures LogAll(r, lines).tracked == r.tracked
    ensures LogAll(r, lines).showTimestamps == r.showTimestamps
  {
    LogAllRetains(r, lines);
    assert r.history + lines == lines;
  }

  /** When every entry's source is visible, nothing is filtered out. */
  lemma {:induction false} VisibleAll(h: seq<LogLine>, tracked: Dict<string, bool>)
    requires forall i :: 0 <= i < |h| ==> h[i].source in CheckedNames(tracked)
    ensures VisibleEntries(h, tracked) == h
  {
    if h != [] {
      var last := |h| - 1;
      var p := h[..last];
      assert p + [h[last]] == h;
      VisibleAll(p, tracked);
    }
  }
}

=== FILE: ordered_dict.dfy ===
/** An insertion-ordered dictionary, the value model of a Python `dict`:
    a sequence of key/value pairs whose keys are pairwise distinct.
    Assigning to a present key keeps its position; a new key goes last. */
module OrderedDict {

  type Dict<K, V> = seq<(K, V)>

  /** The keys, in iteration order. */
  function Keys<K, V>(d: Dict<K, V>): seq<K> {
    seq(|d|, i requires 0 <= i < |d| => d[i].0)
  }

  /** The values, in iteration order (Python's `d.values()`). */
  function Values<K, V>(d: Dict<K, V>): seq<V> {
    seq(|d|, i requires 0 <= i < |d| => d[i].1)
  }

  ghost predicate DistinctKeys<K, V>(d: Dict<K, V>) {
    forall i, j :: 0 <= i < j < |d| ==> d[i].0 != d[j].0
  }

  predicate HasKey<K(==), V>(d: Dict<K, V>, k: K) {
    k in Keys(d)
  }

  /** The position of `k`: the first pair that holds it. */
  function IndexOf<K(==), V>(d: Dict<K, V>, k: K): (i: nat)
    requires HasKey(d, k)
    ensures i < |d| && d[i].0 == k
    ensures forall j :: 0 <= j < i ==> d[j].0 != k
  {
    if d[0].0 == k then 0
    else
      assert Keys(d) == [d[0].0] + Keys(d[1..]);
      1 + IndexOf(d[1..], k)
  }

  /** `d[k]`, for a key that is present. */
  function Get<K(==), V>(d: Dict<K, V>, k: K): V
    requires HasKey(d, k)
  {
    d[IndexOf(d, k)].1
  }

  /** `d[k] = v`: overwrite in place when `k` is present, append otherwise. */
  function Set<K(==), V>(d: Dict<K, V>, k: K, v: V): Dict<K, V> {
    if HasKey(d, k) then d[IndexOf(d, k) := (k, v)] else d + [(k, v)]
  }

  /** In a dictionary with distinct keys, the pair at position `i` is the one `Get` finds. */
  lemma GetAt<K, V>(d: Dict<K, V>, i: nat)
    requires DistinctKeys(d)
    requires i < |d|
    ensures HasKey(d, d[i].0) && IndexOf(d, d[i].0) == i && Get(d, d[i].0) == d[i].1
  {
    assert Keys(d)[i] == d[i].0;
  }

  /** `Set` keeps the key order (a present key stays where it is, a new one goes last)
      and the keys distinct, makes `k` map to `v`, and leaves every other key's value alone. */
  lemma SetSpec<K, V>(d: Dict<K, V>, k: K, v: V)
    requires DistinctKeys(d)
    ensures DistinctKeys(Set(d, k, v))
    ensures Keys(Set(d, k, v)) == if HasKey(d, k) then Keys(d) else Keys(d) + [k]
    ensures HasKey(Set(d, k, v), k) && Get(Set(d, k, v), k) == v
    ensures forall k' :: k' != k ==> (HasKey(Set(d, k, v), k') <==> HasKey(d, k'))
    ensures forall k' :: k' != k && HasKey(d, k') ==> Get(Set(d, k, v), k') == Get(d, k')
  {
    var r := Set(d, k, v);
    if HasKey(d, k) {
      var i := IndexOf(d, k);
      assert Keys(r) == Keys(d);
      GetAt(r, i);
      forall k' | k' != k && HasKey(d, k') ensures Get(r, k') == Get(d, k') {
        var j := IndexOf(d, k');
        GetAt(r, j);
      }
    } else {
      assert Keys(r) == Keys(d) + [k];
      forall i | 0 <= i < |d| ensures d[i].0 != k {
        assert Keys(d)[i] == d[i].0;
      }
      GetAt(r, |d|);
      forall k' | k' != k && HasKey(d, k') ensures Get(r, k') == Get(d, k') {
        var j := IndexOf(d, k');
        GetAt(d, j);
        assert r[j] == d[j];
        GetAt(r, j);
      }
    }
  }

  /** Two dictionaries with distinct keys, the same key order and the same value for
      every key are the same dictionary. */
  lemma Extensionality<K, V>(a: Dict<K, V>, b: Dict<K, V>)
    requires DistinctKeys(a) && DistinctKeys(b)
    requires Keys(a) == Keys(b)
    requires forall k :: HasKey(a, k) ==> Get(a, k) == Get(b, k)
    ensures a == b
  {
    assert |a| == |Keys(a)| == |b|;
    forall i | 0 <= i < |a| ensures a[i] == b[i] {
      assert Keys(a)[i] == a[i].0 && Keys(b)[i] == b[i].0;
      GetAt(a, i);
      GetAt(b, i);
    }
  }

  /** `d.update(u)` for a mapping or an iterable of pairs `u`: assign every pair in
      order, so a key that occurs twice in `u` ends with its later value. */
  function Update<K(==), V>(d: Dict<K, V>, u: seq<(K, V)>): Dict<K, V> {
    if u == [] then d
    else Set(Update(d, u[..|u| - 1]), u[|u| - 1].0, u[|u| - 1].1)
  }

  /** The value the last pair of `u` holding `k` gives it. */
  function LastValue<K(==), V>(u: seq<(K, V)>, k: K): (v: V)
    requires k in Keys(u)
    ensures (k, v) in u
  {
    var n := |u| - 1;
    if u[n].0 == k then u[n].1
    else
      assert Keys(u) == Keys(u[..n]) + [u[n].0];
      LastValue(u[..n], k)
  }

  /** The keys of `u` not in `ks`, each once, in the order of their first occurrence. */
  function NewKeys<K(==), V>(ks: seq<K>, u: seq<(K, V)>): seq<K> {
    if u == [] then []
    else
      var pre := NewKeys(ks, u[..|u| - 1]);
      var k := u[|u| - 1].0;
      if k in ks || k in pre then pre else pre + [k]
  }

  /** A key of `u` that is already in `ks` adds nothing. */
  lemma {:induction false} NewKeysOfKnown<K, V>(ks: seq<K>, u: seq<(K, V)>)
    requires forall k :: k in Keys(u) ==> k in ks
    ensures NewKeys(ks, u) == []
  {
    if u != [] {
      var n := |u| - 1;
      assert Keys(u) == Keys(u[..n]) + [u[n].0];
      NewKeysOfKnown(ks, u[..n]);
    }
  }

  /** What `d.update(u)` leaves behind: the old keys in their old order followed by the
      new keys of `u` in first-occurrence order; a key of `u` maps to its last value in
      `u`, every other key keeps its value, and no other key appears. */
  lemma {:induction false} UpdateSpec<K, V>(d: Dict<K, V>, u: seq<(K, V)>)
    requires DistinctKeys(d)
    ensures DistinctKeys(Update(d, u))
    ensures Keys(Update(d, u)) == Keys(d) + NewKeys(Keys(d), u)
    ensures forall k :: HasKey(Update(d, u), k) <==> HasKey(d, k) || k in Keys(u)
    ensures forall k :: k in Keys(u) ==> Get(Update(d, u), k) == LastValue(u, k)
    ensures forall k :: HasKey(d, k) && k !in Keys(u) ==> Get(Update(d, u), k) == Get(d, k)
  {
    if u != [] {
      var n := |u| - 1;
      var p := u[..n];
      var x := u[n];
      assert Keys(u) == Keys(p) + [x.0];
      UpdateSpec(d, p);
      var m := Update(d, p);
      SetSpec(m, x.0, x.1);
      assert Update(d, u) == Set(m, x.0, x.1);
      assert HasKey(m, x.0) <==> x.0 in Keys(d) || x.0 in NewKeys(Keys(d), p);
    }
  }

  /** Updating twice with the same pairs is updating once. */
  lemma UpdateIdempotent<K, V>(d: Dict<K, V>, u: seq<(K, V)>)
    requires DistinctKeys(d)
    ensures Update(Update(d, u), u) == Update(d, u)
  {
    var once := Update(d, u);
    UpdateSpec(d, u);
    UpdateSpec(once, u);
    NewKeysOfKnown(Keys(once), u);
    Extensionality(Update(once, u), once);
  }

  /** Dropping pairs from the end keeps the keys distinct. */
  lemma DistinctPrefix<K, V>(d: Dict<K, V>, n: nat)
    requires DistinctKeys(d) && n <= |d|
    ensures DistinctKeys(d[..n])
  {
    forall i, j | 0 <= i < j < n ensures d[..n][i].0 != d[..n][j].0 {
      assert d[..n][i] == d[i] && d[..n][j] == d[j];
    }
  }

  /** Appending a pair with a new key keeps the keys distinct. */
  lemma DistinctAppend<K, V>(d: Dict<K, V>, x: (K, V))
    requires DistinctKeys(d)
    requires forall i :: 0 <= i < |d| ==> d[i].0 != x.0
    ensures DistinctKeys(d + [x])
  {
    forall i, j | 0 <= i < j < |d + [x]| ensures (d + [x])[i].0 != (d + [x])[j].0 {
      assert (d + [x])[i] == d[i];
      if j < |d| {
        assert (d + [x])[j] == d[j];
      }
    }
  }
}

=== FILE: pythonic.dfy ===
/** The dictionary helpers `copy_update` and `dict_start_with`, over value-semantics
    dictionaries: a copy and a deep copy of a value are the value itself. */
module Pythonic {
  import opened Wrappers
  import opened OrderedDict
  import opened Text

  /** `dict.update` accepts at most one positional argument; more raise `TypeError`. */
  datatype UpdateError = TooManyPositionalArguments(given: nat)

  /** The pairs `options.update(*args, **kwargs)` assigns, in the order it assigns them:
      the single positional argument's pairs, then the keyword arguments. */
  function UpdatePairs<K, V>(args: seq<seq<(K, V)>>, kwargs: Dict<K, V>): seq<(K, V)>
    requires |args| <= 1
  {
    (if args == [] then [] else args[0]) + kwargs
  }

  /** `deepcopy(options)` and `options.copy()`: with value semantics both are the value. */
  function DeepCopy<K, V>(options: Dict<K, V>): Dict<K, V> { options }
  function ShallowCopy<K, V>(options: Dict<K, V>): Dict<K, V> { options }

  /** `copy_update(options, *args, deep_copy=..., **kwargs)`: copy `options`, then update the
      copy. Every key the update assigns maps to the last value the update gives it, every other
      key keeps its value, the keys are the union of both key sets with the original keys first
      in their original order, and the input is a value, so it cannot change. */
  function CopyUpdate<K(==,!new), V>(options: Dict<K, V>, args: seq<seq<(K, V)>>, kwargs: Dict<K, V>,
                                deepCopy: bool): (r: Result<Dict<K, V>, UpdateError>)
    requires DistinctKeys(options)
    ensures r.Failure? <==> |args| > 1
    ensures r.Failure? ==> r.error == TooManyPositionalArguments(|args|)
    ensures r.Success? ==> DistinctKeys(r.value)
    ensures r.Success? ==> Keys(r.value) == Keys(options) + NewKeys(Keys(options), UpdatePairs(args, kwargs))
    ensures r.Success? ==> forall k :: HasKey(r.value, k) <==> HasKey(options, k) || k in Keys(UpdatePairs(args, kwargs))
    ensures r.Success? ==> forall k :: k in Keys(UpdatePairs(args, kwargs)) ==>
                             Get(r.value, k) == LastValue(UpdatePairs(args, kwargs), k)
    ensures r.Success? ==> forall k :: HasKey(options, k) && k !in Keys(UpdatePairs(args, kwargs)) ==>
                             Get(r.value, k) == Get(options, k)
  {
    if |args| > 1 then Failure(TooManyPositionalArguments(|args|))
    else
      var copy := if deepCopy then DeepCopy(options) else ShallowCopy(options);
      UpdateSpec(copy, UpdatePairs(args, kwargs));
      Success(Update(copy, UpdatePairs(args, kwargs)))
  }

  /** Updating with `u` and then with `w` is updating with `u + w`. */
  lemma {:induction false} UpdateConcat<K, V>(d: Dict<K, V>, u: seq<(K, V)>, w: seq<(K, V)>)
    ensures Update(Update(d, u), w) == Update(d, u + w)
  {
    if w != [] {
      var n := |w| - 1;
      assert (u + w)[..|u + w| - 1] == u + w[..n];
      assert (u + w)[|u + w| - 1] == w[n];
      UpdateConcat(d, u, w[..n]);
    } else {
      assert u + w == u;
    }
  }

  /** The `deep_copy` flag does not change the resulting dictionary. */
  lemma CopyUpdateDeepCopyIrrelevant<K(!new), V>(options: Dict<K, V>, args: seq<seq<(K, V)>>, kwargs: Dict<K, V>)
    requires DistinctKeys(options)
    ensures CopyUpdate(options, args, kwargs, true) == CopyUpdate(options, args, kwargs, false)
  {
  }

  /** Applying the same update to the result of `copy_update` gives that result back. */
  lemma CopyUpdateIdempotent<K(!new), V>(options: Dict<K, V>, args: seq<seq<(K, V)>>, kwargs: Dict<K, V>,
                                   deepCopy: bool)
    requires DistinctKeys(options)
    requires |args| <= 1
    ensures CopyUpdate(options, args, kwargs, deepCopy).Success?
    ensures CopyUpdate(CopyUpdate(options, args, kwargs, deepCopy).value, args, kwargs, deepCopy)
            == CopyUpdate(options, args, kwargs, deepCopy)
  {
    var u := UpdatePairs(args, kwargs);
    UpdateIdempotent(options, u);
  }

  /** The `as_` argument of `dict_start_with`: the class `list`, the class `dict`, or anything else. */
  datatype AsKind = AsList | AsDict | AsOther

  /** What `dict_start_with` returns: a list of values, a dict, or `None`. */
  datatype StartWithResult<V> = ValueList(values: seq<V>) | SubDict(entries: Dict<string, V>) | NoneValue

  /** The entries of `d` whose key starts with `prefix`, in iteration order. */
  function Matching<V(!new)>(d: Dict<string, V>, prefix: string): (r: Dict<string, V>)
    ensures |r| <= |d|
    ensures forall e :: e in r <==> e in d && StartsWith(e.0, prefix)
  {
    if d == [] then []
    else
      var n := |d| - 1;
      assert d == d[..n] + [d[n]];
      var pre := Matching(d[..n], prefix);
      if StartsWith(d[n].0, prefix) then pre + [d[n]] else pre
  }

  /** `dict_start_with(my_dict, start_with, as_)`. */
  function DictStartWith<V(!new)>(d: Dict<string, V>, prefix: string, as_: AsKind): (r: StartWithResult<V>)
    ensures as_ == AsOther <==> r == NoneValue
    ensures as_ == AsDict ==> r == SubDict(Matching(d, prefix))
    ensures as_ == AsList ==> r == ValueList(Values(Matching(d, prefix)))
  {
    match as_
    case AsList => ValueList(Values(Matching(d, prefix)))
    case AsDict => SubDict(Matching(d, prefix))
    case AsOther => NoneValue
  }

  /** The filter keeps iteration order: filtering a concatenation filters each part. */
  lemma {:induction false} MatchingConcat<V(!new)>(a: Dict<string, V>, b: Dict<string, V>, prefix: string)
    ensures Matching(a + b, prefix) == Matching(a, prefix) + Matching(b, prefix)
  {
    if b != [] {
      var n := |b| - 1;
      assert (a + b)[..|a + b| - 1] == a + b[..n];
      assert (a + b)[|a + b| - 1] == b[n];
      MatchingConcat(a, b[..n], prefix);
      var keep := StartsWith(b[n].0, prefix);
      assert Matching(a + b, prefix) == Matching(a + b[..n], prefix) + (if keep then [b[n]] else []);
      assert Matching(b, prefix) == Matching(b[..n], prefix) + (if keep then [b[n]] else []);
    } else {
      assert a + b == a;
    }
  }

  /** Filtering keeps keys distinct, so the `dict` result is a well-formed dictionary. */
  lemma {:induction false} MatchingDistinct<V(!new)>(d: Dict<string, V>, prefix: string)
    requires DistinctKeys(d)
    ensures DistinctKeys(Matching(d, prefix))
  {
    if d != [] {
      var n := |d| - 1;
      var p := d[..n];
      DistinctPrefix(d, n);
      MatchingDistinct(p, prefix);
      var m := Matching(p, prefix);
      if StartsWith(d[n].0, prefix) {
        forall i | 0 <= i < |m| ensures m[i].0 != d[n].0 {
          assert m[i] in p;
          var j :| 0 <= j < |p| && p[j] == m[i];
          assert p[j] == d[j] && j < n;
        }
        DistinctAppend(m, d[n]);
        assert Matching(d, prefix) == m + [d[n]];
      }
    }
  }

  /** With the `dict` result, a key is present exactly when it is a key of `d` that starts
      with `prefix`, and it keeps its value. */
  lemma DictStartWithEntries<V(!new)>(d: Dict<string, V>, prefix: string, k: string)
    requires DistinctKeys(d)
    ensures DictStartWith(d, prefix, AsDict).SubDict?
    ensures HasKey(DictStartWith(d, prefix, AsDict).entries, k) <==> HasKey(d, k) && StartsWith(k, prefix)
    ensures HasKey(DictStartWith(d, prefix, AsDict).entries, k) ==>
              Get(DictStartWith(d, prefix, AsDict).entries, k) == Get(d, k)
  {
    var m := Matching(d, prefix);
    MatchingDistinct(d, prefix);
    if HasKey(m, k) {
      var i := IndexOf(m, k);
      GetAt(m, i);
      assert m[i] in d;
      var j :| 0 <= j < |d| && d[j] == m[i];
      GetAt(d, j);
    } else if HasKey(d, k) && StartsWith(k, prefix) {
      var j := IndexOf(d, k);
      assert d[j] in m;
      var i :| 0 <= i < |m| && m[i] == d[j];
      assert Keys(m)[i] == k;
    }
  }

  /** The `list` result holds as many values as the `dict` result has entries. */
  lemma DictStartWithSizes<V(!new)>(d: Dict<string, V>, prefix: string)
    ensures |DictStartWith(d, prefix, AsList).values| == |DictStartWith(d, prefix, AsDict).entries|
    ensures DictStartWith(d, prefix, AsList).values == Values(DictStartWith(d, prefix, AsDict).entries)
  {
  }

  /** Every key starts with the empty prefix, so it selects every value, in order. */
  lemma {:induction false} DictStartWithEmptyPrefix<V(!new)>(d: Dict<string, V>)
    ensures DictStartWith(d, "", AsList) == ValueList(Values(d))
    ensures DictStartWith(d, "", AsDict) == SubDict(d)
  {
    MatchingAll(d);
  }

  lemma {:induction false} MatchingAll<V(!new)>(d: Dict<string, V>)
    ensures Matching(d, "") == d
  {
    if d != [] {
      var n := |d| - 1;
      MatchingAll(d[..n]);
      assert d == d[..n] + [d[n]];
    }
  }

  /** The docstring's example; the match is case-sensitive, so `"date"` selects nothing. */
  lemma DictStartWithExample()
    ensures DictStartWith([("name", "Klauss"), ("age", "26"), ("Date of birth", "15th july")], "Date", AsList)
            == ValueList(["15th july"])
    ensures DictStartWith([("name", "Klauss"), ("age", "26"), ("Date of birth", "15th july")], "date", AsList)
            == ValueList([])
  {
    var d := [("name", "Klauss"), ("age", "26"), ("Date of birth", "15th july")];
    assert "name"[..4][0] != "Date"[0];
    assert "age"[0] != "Date"[0];
    assert "name"[..4][0] != "date"[0];
    assert "age"[0] != "date"[0];
    assert "Date of birth"[..4] == "Date";
    assert "Date of birth"[..4][0] != "date"[0];
    assert d[..2] == [("name", "Klauss"), ("age", "26")];
    assert d[..2][..1] == [("name", "Klauss")];
    assert d[..2][..1][..0] == [];
    assert !StartsWith("name", "date") && !StartsWith("age", "date");
    assert Matching(d[..2][..1], "date") == [];
    assert d[..2][1] == ("age", "26");
    assert Matching(d[..2], "date") == Matching(d[..2][..1], "date");
    assert Matching(d[..2], "Date") == [] && Matching(d[..2], "date") == [];
    assert Matching(d, "Date") == [("Date of birth", "15th july")];
    assert Matching(d, "date") == [];
  }
}

=== FILE: text.dfy ===
/** The few Python `str` operations the log widget relies on, over `seq<char>`. */
module Text {
  import opened Wrappers

  /** `s.startswith(prefix)`: an exact, case-sensitive comparison of the first characters. */
  predicate StartsWith(s: string, prefix: string) {
    |prefix| <= |s| && s[..|prefix|] == prefix
  }

  /** `pat` occurs in `s` starting at position `j`. */
  predicate OccursAt(s: string, pat: string, j: nat) {
    j + |pat| <= |s| && s[j..j + |pat|] == pat
  }

  /** The leftmost occurrence of `pat` in `s` starts at `i`. */
  ghost predicate FirstAt(s: string, pat: string, i: nat) {
    OccursAt(s, pat, i) && forall j :: 0 <= j < i ==> !OccursAt(s, pat, j)
  }

  /** `pat` does not occur in `s`. */
  ghost predicate Absent(s: string, pat: string) {
    forall j :: 0 <= j ==> !OccursAt(s, pat, j)
  }

  /** The leftmost position at which `pat` occurs in `s`, if any (`s.find(pat)`). */
  function Find(s: string, pat: string): (r: Option<nat>)
    ensures r.Some? ==> FirstAt(s, pat, r.value)
    ensures r.None? ==> Absent(s, pat)
    decreases |s|
  {
    if |s| < |pat| then None
    else if s[..|pat|] == pat then Some(0)
    else
      var rest := Find(s[1..], pat);
      OccursInTail(s, pat);
      if rest.None? then None else Some(rest.value + 1)
  }

  /** An occurrence in `s[1..]` is an occurrence in `s` one position further on. */
  lemma OccursInTail(s: string, pat: string)
    requires |s| >= 1
    ensures forall j :: 1 <= j ==> (OccursAt(s, pat, j) <==> OccursAt(s[1..], pat, j - 1))
  {
    forall j | 1 <= j
      ensures OccursAt(s, pat, j) <==> OccursAt(s[1..], pat, j - 1)
    {
      if j + |pat| <= |s| {
        assert s[1..][j - 1..j - 1 + |pat|] == s[j..j + |pat|];
      }
    }
  }

  /** `s.split(sep, 1)`: the text before the first `sep` and the text after it, or the
      whole of `s` as the single piece when `sep` does not occur. An empty separator is a
      `ValueError` in Python, so callers pass a non-empty one. */
  function SplitOnce(s: string, sep: string): (pieces: seq<string>)
    requires |sep| > 0
    ensures |pieces| == 1 || |pieces| == 2
    ensures |pieces| == 1 <==> Absent(s, sep)
    ensures |pieces| == 1 ==> pieces[0] == s
    ensures |pieces| == 2 ==> s == pieces[0] + sep + pieces[1] && FirstAt(s, sep, |pieces[0]|)
  {
    match Find(s, sep)
    case None => [s]
    case Some(i) =>
      assert s == s[..i] + s[i..i + |sep|] + s[i + |sep|..];
      [s[..i], s[i + |sep|..]]
  }

  /** The Python slice `s[n:]`, which is empty when `n` is past the end. */
  function DropPrefix(s: string, n: nat): (r: string)
    ensures n <= |s| ==> s == s[..n] + r
    ensures n > |s| ==> r == []
    ensures |r| == if n <= |s| then |s| - n else 0
  {
    if n <= |s| then s[n..] else []
  }
}

=== FILE: wrappers.dfy ===
/** Failure-carrying results shared by the other modules. */
module Wrappers {

  datatype Option<+T> = None | Some(value: T)

  datatype Result<+R, +E> = Success(value: R) | Failure(error: E)
}
